=== FILE: README.md ===
# Skilled worker directory: view state and worker filter

This project models the logic of the SkilledHelpers directory page in Dafny.
The page shows a list of service-provider profiles ("workers") and a
marketplace of products. It keeps one piece of view state, made of:

- the open view (`home`, `about`, `products`, `others`);
- the active category, which is either the `ALL` wildcard or one trade;
- the applied search query;
- the two collections.

The worker list on screen is derived from that state by a two-step filter.
First the category step keeps the workers of the active category. Then the
query step runs when the trimmed query is not empty. It keeps the workers
whose lower-cased name, description or service tag contains the
lower-cased, untrimmed query.

The page chrome (`Layout`) has its own state: the text in the search box
and whether the mobile search drawer is open. Its controls call back into
the directory. Both collections are persisted in `localStorage`. Each one
lives under its own `_v1` key, and the built-in seed is used when the key
is missing or empty.

The model is functional. Each handler is one atomic transition on
immutable records, and the filtered list is a pure function of the state.
The modules are:

- `Results`: the `Option` and `Result` wrappers for a missing value and a failed load;
- `Text`: `trim`, `toLowerCase` and `includes`;
- `Seqs`: the sequence filter;
- `Catalog`: the entities;
- `FilterEngine`: the worker filter;
- `App`: the directory state and its handlers;
- `Layout`: the chrome's handlers;
- `Persistence`: storage as a key-to-text map, with `JSON.stringify`/`JSON.parse` as a codec parameter;
- `Session`: all controls as one state machine.

Three behaviours of the code are easy to misread, and the model keeps them
as written:

- A stored payload that does not parse makes mounting fail. `JSON.parse` is
  not guarded, so the seed is not used in that case.
- The query used for matching is not trimmed. Only the blankness test trims it.
- A worker or product handed to the add handlers is stored as given. No
  validation or identifier assignment is visible in the core.

## Model

| member | source | states |
|---|---|---|
| Text.Trim | App.tsx:46 | `trim` returns an infix of the input with only white space removed at both ends, starting and ending with a non-space character; it is empty exactly when every character is ECMAScript white space |
| Text.Blank | App.tsx:46 | a query counts as blank (its trimmed form is falsy) exactly when it consists of white space only |
| Text.IncludesIff | App.tsx:49-51 | `includes` holds exactly when the needle occurs at some position of the text; the empty needle occurs everywhere |
| Text.Lower | App.tsx:47-51 | `toLowerCase` keeps the length, maps each ASCII capital to its small letter and leaves every other character alone, so no ASCII capital remains |
| Text.Includes | App.tsx:49-51 | `includes` finds the empty needle in every text, never finds a needle longer than the text, and finds a needle only in a text that contains each of its characters |
| Text.LowerKeepsBlank | App.tsx:46-47 | lower-casing a query does not change whether it is blank |
| Seqs.Filter | App.tsx:43-52 | `filter` returns an order-preserving subsequence whose elements all pass the test, and every element of the input that passes is kept |
| Seqs.FilterCounts | App.tsx:43-52 | each passing value occurs in the result of `filter` exactly as often as in the input, and a failing value not at all |
| FilterEngine.MatchesQuery | App.tsx:47-51 | a worker matches a query exactly when the lower-cased query occurs at some position of the lower-cased name, of some lower-cased service tag, or of the lower-cased description |
| FilterEngine.Apply | App.tsx:39-56 | the shown list equals a single filter by "category step AND query step". So it is a subsequence of the workers in their order, every shown worker has the active category (unless `ALL`) and matches a non-blank query, and every such worker is shown |
| FilterEngine.StagesAreConjunction | App.tsx:40-53 | running the category filter and then the query filter keeps exactly the workers that pass both tests |
| FilterEngine.WildcardBlankShowsAll | App.tsx:40-46 | with category `ALL` and a blank query, the list shown is the whole collection, unchanged |
| FilterEngine.SpacesFilterLikeEmpty | App.tsx:46 | an all-white-space query filters exactly like the empty query, for every category |
| FilterEngine.CategoryNarrows | App.tsx:40-53 | for any query, the list shown for a category is a subsequence of the list shown for `ALL` |
| FilterEngine.QueryCaseIgnored | App.tsx:47-51 | a query and its lower-cased form give the same list |
| FilterEngine.ApplyIdempotent | App.tsx:39-56 | filtering the filtered list again with the same category and query changes nothing |
| FilterEngine.ApplyPrepend | App.tsx:40-53 | for a collection with one more worker in front, that worker is shown first exactly when it passes both steps, followed by the old view unchanged |
| FilterEngine.UntrimmedQueryMatchesLiterally | App.tsx:46-47 | " ab" is not blank, yet it does not match a worker named "ab" with no other text, while "ab" does: matching uses the untrimmed query |
| App.Shown | App.tsx:27-56 | the list on screen is a subsequence of the workers holding exactly those that pass the category and query steps; with `ALL` and a blank query it is the whole collection, which is also the list's initial value |
| App.Start | App.tsx:10-27 | the initial state is the home view, the `ALL` category and an empty query, and the list shown is every loaded worker. This agrees with the filtered list being initialised to the workers |
| App.AddWorker | App.tsx:58-62 | the new worker is put in front of the workers, the category becomes `ALL` and the view `home`; products and query are unchanged |
| App.AddProduct | App.tsx:64-67 | the new product is put in front of the products and the view becomes `products`; workers, category and query are unchanged |
| App.Search | App.tsx:346-352 | the query is always applied; a non-blank query also sets the category to `ALL` and the view to `home`, and a blank one leaves both as they were |
| App.SetCategory | App.tsx:345 | `onCategoryChange` changes only the active category |
| App.SetView | App.tsx:356 | `onChangeView` changes only the view |
| App.AiSelect | App.tsx:364-367 | the AI helper's category becomes active on the home view; the applied query is kept, so category and query compose |
| App.CategoryChoiceNarrowsSearch | App.tsx:364-367 | picking a category through the AI helper or a category control keeps the applied query; the list is that query's result narrowed to the category |
| App.AddedWorkerShownFirst | App.tsx:58-62 | after an add, the new worker heads the shown list exactly when the applied query lets it through, and every other worker the query lets through follows it |
| App.AddProductKeepsShown | App.tsx:64-67 | adding a product leaves the shown worker list unchanged |
| App.SearchScope | App.tsx:346-352 | a non-blank search shows exactly the matches from the whole collection, whatever category was active; a blank one shows the active category unfiltered by text |
| Layout.SidebarCategories | components/Layout.tsx:176 | the sidebar list is the taxonomy in its order without the `ALL` entry: no entry is `ALL`, and every other taxonomy entry is listed as often as the taxonomy holds it |
| Layout.HomeHighlighted | components/Layout.tsx:154 | while "Home Overview" is highlighted no sidebar category is, and every worker matching the applied query is on screen, whatever its trade |
| Layout.EntryHighlighted | components/Layout.tsx:179 | while a trade's sidebar entry is highlighted, every worker on screen belongs to that trade |
| Layout.TypeQuery | components/Layout.tsx:89 | typing changes only the search box text; the directory is untouched until submit |
| Layout.ToggleMobileSearch | components/Layout.tsx:119 | the mobile search button flips the drawer and changes nothing else |
| Layout.SubmitSearch | components/Layout.tsx:29-34 | submitting applies the box text unchanged as the query and always opens `home`, even for a blank query; only a non-blank query resets the category to `ALL`; the drawer closes |
| Layout.ClickLogo | components/Layout.tsx:69 | the logo sets the view to `home`, the category to `ALL`, and empties both the box and the applied query |
| Layout.ClickHome | components/Layout.tsx:157 | sidebar Home sets `home` and `ALL` and empties the box, but keeps the applied query, since it does not call `onSearch` |
| Layout.ClickMobileHome | components/Layout.tsx:262 | mobile Home sets `home` and `ALL`; box and query are unchanged |
| Layout.ClickCategory | components/Layout.tsx:182 | a sidebar category sets `home` and that entry's category, which then is highlighted; box and query are unchanged |
| Layout.ClickView | components/Layout.tsx:163 | the plain navigation entries change only the view |
| Layout.LogoShowsEveryWorker | components/Layout.tsx:69 | after the logo the whole collection is shown in stored order |
| Layout.HomeKeepsSearchResults | components/Layout.tsx:157 | after sidebar Home the list is still narrowed by the old query, though the box is empty; it shows everyone only when that query was blank |
| Layout.SidebarCategoryMovesHighlight | components/Layout.tsx:154-182 | choosing a sidebar category turns off the Home highlight (`home` view and `ALL` category) and highlights that entry |
| Persistence.LoadSlot | App.tsx:14-22 | a missing key or an empty string loads the seed; otherwise the parsed text loads, or the load fails when it does not parse |
| Persistence.SaveSlot | App.tsx:30-36 | saving a collection replaces only the text under its own key |
| Persistence.Load | App.tsx:14-22 | mounting reads workers, then products, each from its own key; it succeeds exactly when both reads do and then starts on `home`/`ALL`/no query; a bad workers payload is the reported failure |
| Persistence.Save | App.tsx:30-36 | the two effects store each collection's text under its own `_v1` key and leave every other key as it was |
| Persistence.SlotRoundTrip | App.tsx:15-16 | a collection saved under a key loads back as itself |
| Persistence.SlotsIndependent | App.tsx:31-35 | saving one collection never changes what another key loads |
| Persistence.SaveThenLoad | App.tsx:14-36 | reloading after a save restores both collections |
| Persistence.SaveIdempotent | App.tsx:30-36 | saving the same state twice stores the same as saving it once |
| Persistence.AbsentKeysLoadSeeds | App.tsx:13-22 | with neither `_v1` key present (first visit, or only older-version keys) both seeds load |
| Persistence.UnparsableWorkersFail | App.tsx:16 | a workers payload that does not parse makes mounting fail; no seed is substituted |
| Session.Open | components/Layout.tsx:26-27 | on mount the search box is empty and the drawer closed |
| Session.CollectionsOnlyPrepend | App.tsx:58-67 | after any sequence of controls, each collection is the entries added meanwhile, newest first, followed by the old collection unchanged |
| Session.QueryChangesOnlyBySearch | components/Layout.tsx:29-69 | only submit and the logo change the applied query; the logo always empties it, and submit applies the box text |
| Session.NavigationTargets | components/Layout.tsx:29-262 | submit, logo, both Home buttons, sidebar categories, the AI helper and adding a worker land on `home`. Adding a product lands on `products`. Logo, both Homes and adding a worker reset the category; typing, the drawer, plain navigation and adding a product keep it |
| Session.Step | App.tsx:58-67 | of all the controls only adding a worker changes the workers and only adding a product changes the products, each by putting the new entry in front |
| Session.Mount | App.tsx:14-36 | the mounted screen is the loaded directory with an empty box, and mounting fails exactly when loading does; after a successful mount storage holds both loaded collections under their `_v1` keys and every other key as before |
| Session.FirstVisitStoresSeeds | App.tsx:13-36 | on a first visit the mount succeeds with the seed workers on screen and writes both seeds under their `_v1` keys |
| Session.PersistedStepIsGated | App.tsx:29-36 | the model writes both keys after every action, while the source writes a key only when its collection changed; once storage holds both encoded collections the results agree: only an added worker or product rewrites its own key, and every other action leaves storage as it was |
| Session.PersistedRunKeepsInSync | App.tsx:29-36 | when storage agrees with the screen, it still agrees after any sequence of controls, each followed by the persistence effects |
| Session.ReloadRestoresCollections | App.tsx:14-36 | after a successful mount and any sequence of controls, a reload restores exactly the collections on screen |

## Left out

- Rendering, CSS and animations, and the About, Resources and Marketplace page markup: presentation only.
- `components/WorkerCard.tsx`: display of one card, an `alert` on contact and a display-only cut to three tags.
- `DiagnoseModal` and `AddDataModal`: they are not part of this model. The AI helper appears only as the category it hands back. An added entity is taken as given: identifier assignment, numeric coercion and validation happen in code outside the model.
- The flags that open and close those two modals: they only decide whether a modal is rendered.
- `constants.ts` and `types.ts` are not part of this model. The `WorkerCategory` values, `CATEGORIES_LIST` and the seed collections are therefore parameters, and a category is `All` or a named trade.
- `JSON.stringify`/`JSON.parse`: a codec parameter.
- Persistence.Faithful: assumes the codec round-trips every array of records. Real JSON does so for the records of the model, whose numbers are `Catalog.JsonNumber`s. The numbers it would not give back are outside the model: `NaN`, infinities (written as `null`) and `-0` (written as `0`). So are fields holding `undefined`, which are dropped. So is a category `Named(t)` whose `t` is the text of `WorkerCategory.ALL`: the code stores the wildcard as that same text, so such a category is written like `All` and reads back as `All`.
- Persistence.LoadSlot: a stored payload that parses to something other than an array of well-formed records (`"null"`, `"{}"`, records with missing or mistyped fields) is outside the model. The code returns it unchecked. For workers, `"null"` and records without `services` make the first render throw (App.tsx:141, components/WorkerCard.tsx:69), so mounting fails. Other such payloads, and every such products payload, mount and fail later, when the collection is filtered, shown or added to. The codec's parse yields either a failure or an array of records.
- Real `localStorage`, including write failures and quotas: storage is a map from key to text.
- Text.Lower: lower-cases ASCII letters only. Full Unicode `toLowerCase` (other scripts, length-changing mappings) is not modelled.
- `hourlyRate`, `rating`, `reviews` and `price`: opaque fields the logic never inspects. Each is a `Catalog.JsonNumber`, the bit pattern of a finite double other than `-0`.
- React effect scheduling and batching: each handler is one atomic transition, and the filtered list is recomputed from the state instead of being stored.

=== FILE: app.dfy ===
/** The directory page's state (`App`): which view is open, the active
    category, the applied search query and the two collections, with the
    handlers that change them. Each handler is one atomic transition; the
    filtered list is derived from the state rather than stored. */
module App {
  import opened Text
  import opened Seqs
  import opened Catalog
  import opened FilterEngine

  datatype Directory = Directory(
    view: View,
    category: Category,
    query: string,
    workers: seq<Worker>,
    products: seq<Product>)

  /** `filteredWorkers`: the filter applied to the current state. */
  function Shown(d: Directory): (r: seq<Worker>)
    ensures IsSubseq(r, d.workers)
    ensures forall i :: 0 <= i < |r| ==> InCategory(d.category, r[i]) && PassesQuery(d.query, r[i])
    ensures forall i :: 0 <= i < |d.workers| && InCategory(d.category, d.workers[i]) && PassesQuery(d.query, d.workers[i]) ==> d.workers[i] in r
    ensures d.category == All && AllSpace(d.query) ==> r == d.workers
  {
    WildcardBlankShowsAll(d.workers, d.query);
    Apply(d.workers, d.category, d.query)
  }

  /** The state right after the collections are loaded: home view, the
      wildcard category and an empty query, so every worker is shown, which
      is also what the filtered list is initialised to. */
  function Start(workers: seq<Worker>, products: seq<Product>): (d: Directory)
    ensures d.view == Home && d.category == All && d.query == ""
    ensures d.workers == workers && d.products == products
    ensures Shown(d) == workers
  {
    assert AllSpace("");
    WildcardBlankShowsAll(workers, "");
    Directory(Home, All, "", workers, products)
  }

  /** `handleAddWorker`: the new worker goes in front of the others, the
      whole directory is shown again, and the products are untouched. */
  function AddWorker(d: Directory, w: Worker): (r: Directory)
    ensures r.workers == [w] + d.workers
    ensures r.category == All && r.view == Home
    ensures r.products == d.products && r.query == d.query
  {
    d.(workers := [w] + d.workers, category := All, view := Home)
  }

  /** `handleAddProduct`: the new product goes in front of the others and
      the marketplace is opened; workers, category and query stay. */
  function AddProduct(d: Directory, p: Product): (r: Directory)
    ensures r.products == [p] + d.products
    ensures r.view == Products
    ensures r.workers == d.workers && r.category == d.category && r.query == d.query
  {
    d.(products := [p] + d.products, view := Products)
  }

  /** `onSearch`: the query is always applied; a query that is not blank
      also widens the category to `All` and opens the home view, while a
      blank one leaves category and view as they were. */
  function Search(d: Directory, q: string): (r: Directory)
    ensures r.query == q
    ensures !AllSpace(q) ==> r.category == All && r.view == Home
    ensures AllSpace(q) ==> r.category == d.category && r.view == d.view
    ensures r.workers == d.workers && r.products == d.products
  {
    var d' := d.(query := q);
    if !Blank(q) then d'.(category := All, view := Home) else d'
  }

  /** `onCategoryChange` (also the category pills of the home view): only
      the active category changes. */
  function SetCategory(d: Directory, c: Category): (r: Directory)
    ensures r.category == c
    ensures r.view == d.view && r.query == d.query
    ensures r.workers == d.workers && r.products == d.products
  {
    d.(category := c)
  }

  /** `onChangeView`: only the open view changes. */
  function SetView(d: Directory, v: View): (r: Directory)
    ensures r.view == v
    ensures r.category == d.category && r.query == d.query
    ensures r.workers == d.workers && r.products == d.products
  {
    d.(view := v)
  }

  /** `onCategorySelect` of the AI helper: the suggested category becomes
      active on the home view; the applied query is kept, so the two
      compose. */
  function AiSelect(d: Directory, c: Category): (r: Directory)
    ensures r.category == c && r.view == Home
    ensures r.query == d.query
    ensures r.workers == d.workers && r.products == d.products
  {
    SetView(SetCategory(d, c), Home)
  }

  /** After adding a worker, the new worker heads the list exactly when the
      applied query lets it through, followed by every other worker the
      query lets through. */
  lemma AddedWorkerShownFirst(d: Directory, w: Worker)
    ensures Shown(AddWorker(d, w)) ==
            (if PassesQuery(d.query, w) then [w] else []) + Apply(d.workers, All, d.query)
  {
  }

  /** Adding a product does not change the worker list that is shown. */
  lemma AddProductKeepsShown(d: Directory, p: Product)
    ensures Shown(AddProduct(d, p)) == Shown(d)
  {
  }

  /** A query that is not blank searches the whole collection whatever
      category was active; a blank one shows the active category. */
  lemma SearchScope(d: Directory, q: string)
    ensures !AllSpace(q) ==> Shown(Search(d, q)) == Filter(d.workers, w => MatchesQuery(w, q))
    ensures AllSpace(q) ==> Shown(Search(d, q)) == Apply(d.workers, d.category, "")
  {
  }

  /** Picking a category, by the AI helper or a category control, keeps
      the applied query: the list shown is the query's result narrowed to
      that category. */
  lemma CategoryChoiceNarrowsSearch(d: Directory, c: Category)
    ensures Shown(AiSelect(d, c)) == Apply(d.workers, c, d.query)
    ensures IsSubseq(Shown(AiSelect(d, c)), Apply(d.workers, All, d.query))
    ensures Shown(SetCategory(d, c)) == Shown(AiSelect(d, c))
  {
    CategoryNarrows(d.workers, c, d.query);
  }
}

=== FILE: catalog.dfy ===
/** The directory's entities. The enumeration behind `WorkerCategory` and
    the seed collections live in files outside this model, so a category is
    either the `All` wildcard or a named trade, and the seeds are
    parameters wherever they are needed. A trade's name is never the text
    the code uses for the wildcard: stored, the two could not be told
    apart. Numbers the directory only
    displays (rates, ratings, review counts, prices) are carried as opaque
    `JsonNumber` fields. */
module Catalog {

  /** A JavaScript number, as the bit pattern of its IEEE-754 double,
      limited to the numbers `JSON.stringify` writes so that `JSON.parse`
      gives them back: finite (the exponent bits are not all ones) and not
      negative zero. */
  type JsonNumber = b: bv64 | b & 0x7FF0_0000_0000_0000 != 0x7FF0_0000_0000_0000 && b != 0x8000_0000_0000_0000

  /** `WorkerCategory`: the `ALL` wildcard or one trade of the taxonomy. */
  datatype Category = All | Named(tag: string)

  /** `WorkerProfile`: one service provider's listing. */
  datatype Worker = Worker(
    id: string,
    name: string,
    category: Category,
    services: seq<string>,
    description: string,
    hourlyRate: JsonNumber,
    rating: JsonNumber,
    reviews: JsonNumber,
    location: string,
    phone: string,
    imageUrl: string,
    isVerified: bool)

  /** `Product`: one marketplace item; its category is free text. */
  datatype Product = Product(
    id: string,
    name: string,
    category: string,
    price: JsonNumber,
    rating: JsonNumber,
    image: string)

  /** One entry of the category taxonomy (`CATEGORIES_LIST`). */
  datatype CategoryEntry = CategoryEntry(name: string, kind: Category, icon: string)

  /** The page the directory currently shows. */
  datatype View = Home | About | Products | Others
}

=== FILE: filter_engine.dfy ===
/** The directory's filter: a pure function of the active category, the
    applied query and the worker collection, recomputed whenever any of
    them changes. */
module FilterEngine {
  import opened Text
  import opened Seqs
  import opened Catalog

  /** The category step passes a worker: the wildcard, or an exact match. */
  predicate InCategory(c: Category, w: Worker) {
    c == All || w.category == c
  }

  /** The lower-cased, UNTRIMMED query occurs in the lower-cased name, in
      some lower-cased service tag, or in the lower-cased description. */
  predicate MatchesQuery(w: Worker, q: string)
    ensures MatchesQuery(w, q) <==>
      || (exists k :: OccursAt(Lower(w.name), Lower(q), k))
      || (exists i, k :: 0 <= i < |w.services| && OccursAt(Lower(w.services[i]), Lower(q), k))
      || (exists k :: OccursAt(Lower(w.description), Lower(q), k))
  {
    var lq := Lower(q);
    IncludesIff(Lower(w.name), lq);
    IncludesIff(Lower(w.description), lq);
    SomeServiceIncludesIff(w.services, lq);
    || Includes(Lower(w.name), lq)
    || (exists i :: 0 <= i < |w.services| && Includes(Lower(w.services[i]), lq))
    || Includes(Lower(w.description), lq)
  }

  /** Some lower-cased service tag includes the needle exactly when the
      needle occurs at some position of one of them. */
  lemma SomeServiceIncludesIff(services: seq<string>, lq: string)
    ensures (exists i :: 0 <= i < |services| && Includes(Lower(services[i]), lq)) <==>
            (exists i, k :: 0 <= i < |services| && OccursAt(Lower(services[i]), lq, k))
  {
    forall i | 0 <= i < |services| {
      IncludesIff(Lower(services[i]), lq);
    }
  }

  /** The query step passes a worker: a query of white space only, or a
      match. (The code tests blankness with `trim`; `Blank` proves the two
      tests agree.) */
  predicate PassesQuery(q: string, w: Worker) {
    AllSpace(q) || MatchesQuery(w, q)
  }

  /** First stage: narrow to the active category unless it is `All`. */
  function ByCategory(ws: seq<Worker>, c: Category): seq<Worker> {
    if c != All then Filter(ws, (w: Worker) => w.category == c) else ws
  }

  /** Second stage: keep the matches of a query that is not blank. */
  function ByQuery(ws: seq<Worker>, q: string): seq<Worker> {
    if !Blank(q) then Filter(ws, (w: Worker) => MatchesQuery(w, q)) else ws
  }

  /** The workers shown for category `c` and query `q`. The source runs
      two filters in a row; the result is a single filter by the
      conjunction of both steps, hence an order-preserving subsequence of
      `ws` whose members all pass both steps, missing no worker that does. */
  function Apply(ws: seq<Worker>, c: Category, q: string): (r: seq<Worker>)
    ensures r == Filter(ws, w => InCategory(c, w) && PassesQuery(q, w))
    ensures IsSubseq(r, ws)
    ensures forall i :: 0 <= i < |r| ==> InCategory(c, r[i]) && PassesQuery(q, r[i])
    ensures forall i :: 0 <= i < |ws| && InCategory(c, ws[i]) && PassesQuery(q, ws[i]) ==> ws[i] in r
  {
    StagesAreConjunction(ws, c, q);
    ByQuery(ByCategory(ws, c), q)
  }

  /** The category stage followed by the query stage keeps exactly the
      workers passing both tests. */
  lemma StagesAreConjunction(ws: seq<Worker>, c: Category, q: string)
    ensures ByQuery(ByCategory(ws, c), q) == Filter(ws, w => InCategory(c, w) && PassesQuery(q, w))
  {
    if c == All && Blank(q) {
      NoStage(ws, c, q);
    } else if c == All {
      QueryStageOnly(ws, c, q);
    } else if Blank(q) {
      CategoryStageOnly(ws, c, q);
    } else {
      BothStages(ws, c, q);
    }
  }

  /** The four cases of `StagesAreConjunction`, by which stages run. */
  lemma NoStage(ws: seq<Worker>, c: Category, q: string)
    requires c == All && Blank(q)
    ensures ByQuery(ByCategory(ws, c), q) == Filter(ws, w => InCategory(c, w) && PassesQuery(q, w))
  {
    var both := (w: Worker) => InCategory(c, w) && PassesQuery(q, w);
    assert forall i :: 0 <= i < |ws| ==> both(ws[i]);
    FilterKeepsAll(ws, both);
  }

  lemma QueryStageOnly(ws: seq<Worker>, c: Category, q: string)
    requires c == All && !Blank(q)
    ensures ByQuery(ByCategory(ws, c), q) == Filter(ws, w => InCategory(c, w) && PassesQuery(q, w))
  {
    var both := (w: Worker) => InCategory(c, w) && PassesQuery(q, w);
    var hit := (w: Worker) => MatchesQuery(w, q);
    assert forall i :: 0 <= i < |ws| ==> hit(ws[i]) == both(ws[i]);
    FilterExt(ws, hit, both);
  }

  lemma CategoryStageOnly(ws: seq<Worker>, c: Category, q: string)
    requires c != All && Blank(q)
    ensures ByQuery(ByCategory(ws, c), q) == Filter(ws, w => InCategory(c, w) && PassesQuery(q, w))
  {
    var both := (w: Worker) => InCategory(c, w) && PassesQuery(q, w);
    var isC := (w: Worker) => w.category == c;
    assert forall i :: 0 <= i < |ws| ==> isC(ws[i]) == both(ws[i]);
    FilterExt(ws, isC, both);
  }

  lemma BothStages(ws: seq<Worker>, c: Category, q: string)
    requires c != All && !Blank(q)
    ensures ByQuery(ByCategory(ws, c), q) == Filter(ws, w => InCategory(c, w) && PassesQuery(q, w))
  {
    var both := (w: Worker) => InCategory(c, w) && PassesQuery(q, w);
    var isC := (w: Worker) => w.category == c;
    var hit := (w: Worker) => MatchesQuery(w, q);
    assert forall i :: 0 <= i < |ws| ==> both(ws[i]) == (isC(ws[i]) && hit(ws[i]));
    FilterFilter(ws, isC, hit, both);
  }

  /** With the wildcard category and a blank query the whole collection
      is shown, in its own order. */
  lemma WildcardBlankShowsAll(ws: seq<Worker>, q: string)
    ensures Blank(q) ==> Apply(ws, All, q) == ws
  {
  }

  /** An all-white-space query filters exactly like the empty query. */
  lemma SpacesFilterLikeEmpty(ws: seq<Worker>, c: Category, q: string)
    requires AllSpace(q)
    ensures Apply(ws, c, q) == Apply(ws, c, "")
  {
  }

  /** Choosing a category can only narrow the result of a query: what is
      shown is a subsequence of what the wildcard shows. */
  lemma CategoryNarrows(ws: seq<Worker>, c: Category, q: string)
    ensures IsSubseq(Apply(ws, c, q), Apply(ws, All, q))
  {
    FilterMonotone(ws, w => InCategory(c, w) && PassesQuery(q, w), w => InCategory(All, w) && PassesQuery(q, w));
  }

  /** Matching ignores the case of the query. */
  lemma QueryCaseIgnored(ws: seq<Worker>, c: Category, q: string)
    ensures Apply(ws, c, Lower(q)) == Apply(ws, c, q)
  {
    var orig := (w: Worker) => InCategory(c, w) && PassesQuery(q, w);
    var low := (w: Worker) => InCategory(c, w) && PassesQuery(Lower(q), w);
    forall i | 0 <= i < |ws|
      ensures low(ws[i]) == orig(ws[i])
    {
      PassesLowered(ws[i], q);
    }
    FilterExt(ws, low, orig);
  }

  /** One worker passes a query exactly when it passes its lower-cased form. */
  lemma PassesLowered(w: Worker, q: string)
    ensures PassesQuery(Lower(q), w) == PassesQuery(q, w)
  {
    LowerKeepsBlank(q);
    LowerIdempotent(q);
  }

  /** Filtering the filtered list again with the same inputs changes
      nothing. */
  lemma ApplyIdempotent(ws: seq<Worker>, c: Category, q: string)
    ensures Apply(Apply(ws, c, q), c, q) == Apply(ws, c, q)
  {
    FilterIdempotent(ws, w => InCategory(c, w) && PassesQuery(q, w));
  }

  /** The view of a collection with one more worker at the front: that
      worker is shown first exactly when it passes both steps, and the
      rest of the view is unchanged. */
  lemma ApplyPrepend(w: Worker, ws: seq<Worker>, c: Category, q: string)
    ensures Apply([w] + ws, c, q) ==
            (if InCategory(c, w) && PassesQuery(q, w) then [w] else []) + Apply(ws, c, q)
  {
  }

  /** Blankness is decided on the trimmed query but matching uses it
      untrimmed: " ab" is not blank, yet a worker named "ab" with no
      services and no description does not match it, while "ab" does. */
  lemma UntrimmedQueryMatchesLiterally()
    ensures var w := Worker("1", "ab", Named("Plumber"), [], "", 0, 0, 0, "", "", "", false);
            && !Blank(" ab")
            && Apply([w], All, " ab") == []
            && Apply([w], All, "ab") == [w]
  {
    var w := Worker("1", "ab", Named("Plumber"), [], "", 0, 0, 0, "", "", "", false);
    assert !IsSpace(" ab"[1]);
    assert Lower(" ab") == " ab";
    assert Lower("ab") == "ab";
    assert !Includes("ab", " ab");
    assert !Includes("", " ab");
    assert !MatchesQuery(w, " ab");
    assert Includes("ab", "ab");
    assert !IsSpace("ab"[0]);
    assert MatchesQuery(w, "ab");
    FilterCons(w, [], x => InCategory(All, x) && PassesQuery(" ab", x));
    FilterCons(w, [], x => InCategory(All, x) && PassesQuery("ab", x));
  }
}

=== FILE: layout.dfy ===
/** The page chrome (`Layout`): its own state is the text in the search
    box and whether the mobile search drawer is open; its handlers call the
    directory's `onSearch`, `onCategoryChange` and `onChangeView` in the
    order the source does. */
module Layout {
  import opened Text
  import opened Seqs
  import opened Catalog
  import opened FilterEngine
  import opened App

  datatype Chrome = Chrome(input: string, searchOpen: bool)

  datatype Screen = Screen(dir: Directory, chrome: Chrome)

  /** The "Home Overview" entry is highlighted exactly on the home view
      with the wildcard category. */
  predicate HomeHighlighted(s: Screen)
    ensures HomeHighlighted(s) ==> forall e: CategoryEntry :: e.kind != All ==> !EntryHighlighted(s, e)
    ensures HomeHighlighted(s) ==>
      forall i :: 0 <= i < |s.dir.workers| && PassesQuery(s.dir.query, s.dir.workers[i]) ==> s.dir.workers[i] in Shown(s.dir)
  {
    s.dir.view == Home && s.dir.category == All
  }

  /** A sidebar category entry is highlighted when its category is the
      active one. */
  predicate EntryHighlighted(s: Screen, e: CategoryEntry)
    ensures EntryHighlighted(s, e) && e.kind != All ==>
      forall i :: 0 <= i < |Shown(s.dir)| ==> Shown(s.dir)[i].category == e.kind
  {
    s.dir.category == e.kind
  }

  /** The sidebar's category list: the taxonomy without the `All` entry,
      in taxonomy order. */
  function SidebarCategories(taxonomy: seq<CategoryEntry>): (r: seq<CategoryEntry>)
    ensures IsSubseq(r, taxonomy)
    ensures forall i :: 0 <= i < |r| ==> r[i].kind != All
    ensures forall i :: 0 <= i < |taxonomy| && taxonomy[i].kind != All ==> taxonomy[i] in r
    ensures forall e :: multiset(r)[e] == (if e.kind != All then multiset(taxonomy)[e] else 0)
  {
    FilterCounts(taxonomy, (e: CategoryEntry) => e.kind != All);
    Filter(taxonomy, (e: CategoryEntry) => e.kind != All)
  }

  /** Typing in either search box only changes the box's text. */
  function TypeQuery(s: Screen, text: string): (r: Screen)
    ensures r.chrome.input == text && r.chrome.searchOpen == s.chrome.searchOpen
    ensures r.dir == s.dir
  {
    s.(chrome := s.chrome.(input := text))
  }

  /** The mobile search button opens or closes the search drawer. */
  function ToggleMobileSearch(s: Screen): (r: Screen)
    ensures r.chrome.searchOpen != s.chrome.searchOpen
    ensures r.chrome.input == s.chrome.input && r.dir == s.dir
  {
    s.(chrome := s.chrome.(searchOpen := !s.chrome.searchOpen))
  }

  /** `handleSearchSubmit`: the box's text, untrimmed, is applied as the
      query and the home view opens even for a blank query; the category
      is widened to `All` only for a query that is not blank. The drawer
      closes and the box keeps its text. */
  function SubmitSearch(s: Screen): (r: Screen)
    ensures r.dir.query == s.chrome.input
    ensures r.dir.view == Home
    ensures !AllSpace(s.chrome.input) ==> r.dir.category == All
    ensures AllSpace(s.chrome.input) ==> r.dir.category == s.dir.category
    ensures r.chrome == Chrome(s.chrome.input, false)
    ensures r.dir.workers == s.dir.workers && r.dir.products == s.dir.products
  {
    Screen(SetView(Search(s.dir, s.chrome.input), Home), s.chrome.(searchOpen := false))
  }

  /** The logo: home view, wildcard category, empty box, and an empty query
      applied through `onSearch` -- the only control that clears it. */
  function ClickLogo(s: Screen): (r: Screen)
    ensures HomeHighlighted(r)
    ensures r.dir.query == "" && r.chrome.input == ""
    ensures r.chrome.searchOpen == s.chrome.searchOpen
    ensures r.dir.workers == s.dir.workers && r.dir.products == s.dir.products
  {
    var d := SetCategory(SetView(s.dir, Home), All);
    Screen(Search(d, ""), s.chrome.(input := ""))
  }

  /** The sidebar "Home Overview" entry: home view and wildcard category;
      it empties the box but does not call `onSearch`, so the applied query
      stays. */
  function ClickHome(s: Screen): (r: Screen)
    ensures HomeHighlighted(r)
    ensures r.chrome.input == ""
    ensures r.dir.query == s.dir.query
    ensures r.chrome.searchOpen == s.chrome.searchOpen
    ensures r.dir.workers == s.dir.workers && r.dir.products == s.dir.products
  {
    Screen(SetCategory(SetView(s.dir, Home), All), s.chrome.(input := ""))
  }

  /** The mobile bottom bar's Home button: home view and wildcard category;
      neither the box nor the applied query changes. */
  function ClickMobileHome(s: Screen): (r: Screen)
    ensures HomeHighlighted(r)
    ensures r.chrome == s.chrome && r.dir.query == s.dir.query
    ensures r.dir.workers == s.dir.workers && r.dir.products == s.dir.products
  {
    Screen(SetCategory(SetView(s.dir, Home), All), s.chrome)
  }

  /** A sidebar category entry: home view with that entry's category; the
      query and the box are kept. */
  function ClickCategory(s: Screen, e: CategoryEntry): (r: Screen)
    ensures r.dir.view == Home && EntryHighlighted(r, e)
    ensures r.chrome == s.chrome && r.dir.query == s.dir.query
    ensures r.dir.workers == s.dir.workers && r.dir.products == s.dir.products
  {
    Screen(SetCategory(SetView(s.dir, Home), e.kind), s.chrome)
  }

  /** A plain navigation entry (Marketplace, Resources, About, the footer
      links, the bottom bar's other buttons): only the view changes. */
  function ClickView(s: Screen, v: View): (r: Screen)
    ensures r.dir.view == v
    ensures r.dir.category == s.dir.category && r.dir.query == s.dir.query
    ensures r.chrome == s.chrome
    ensures r.dir.workers == s.dir.workers && r.dir.products == s.dir.products
  {
    Screen(SetView(s.dir, v), s.chrome)
  }

  /** After the logo, the whole collection is shown in stored order. */
  lemma LogoShowsEveryWorker(s: Screen)
    ensures Shown(ClickLogo(s).dir) == s.dir.workers
  {
  }

  /** After the sidebar Home entry, the list is still narrowed by the
      previously applied query although the box is empty; it shows every
      worker only when that query was blank. */
  lemma HomeKeepsSearchResults(s: Screen)
    ensures Shown(ClickHome(s).dir) == Apply(s.dir.workers, All, s.dir.query)
    ensures AllSpace(s.dir.query) ==> Shown(ClickHome(s).dir) == s.dir.workers
  {
  }

  /** Choosing a sidebar category turns the Home highlight off and that
      entry's highlight on. */
  lemma SidebarCategoryMovesHighlight(s: Screen, taxonomy: seq<CategoryEntry>, e: CategoryEntry)
    requires e in SidebarCategories(taxonomy)
    ensures !HomeHighlighted(ClickCategory(s, e))
    ensures EntryHighlighted(ClickCategory(s, e), e)
  {
  }
}

=== FILE: persistence.dfy ===
/** Loading and saving the two collections in `localStorage`. Storage is a
    map from key to text; `JSON.stringify`/`JSON.parse` are a codec passed in
    by the caller, whose parse yields `None` where `JSON.parse` would throw
    and otherwise an array of well-formed records: a payload that parses to
    anything else is outside the model.
    Each collection has its own key, and the `_v1` suffix is the schema
    version: data saved under any other key is never read. */
module Persistence {
  import opened Results
  import opened Catalog
  import opened App

  type Storage = map<string, string>

  const WorkersKey: string := "skilledHelpers_workers_v1"
  const ProductsKey: string := "skilledHelpers_products_v1"

  datatype Codec<!T> = Codec(encode: seq<T> -> string, decode: string -> Option<seq<T>>)

  datatype Codecs = Codecs(workers: Codec<Worker>, products: Codec<Product>)

  /** The round trip the persistence relies on: parsing undoes
      stringifying, and the text of an array is never empty (at least
      "[]"). `JSON.stringify` and `JSON.parse` keep this promise for
      records whose numbers are `JsonNumber`s and whose fields are all
      defined. */
  ghost predicate Faithful<T(!new)>(c: Codec<T>) {
    && (forall xs :: c.decode(c.encode(xs)) == Some(xs))
    && (forall xs :: c.encode(xs) != "")
  }

  /** `JSON.parse` threw on the text stored under `key`; the source does
      not catch this, so the directory fails to mount. */
  datatype LoadError = Unparsable(key: string)

  /** The lazy initialiser of one collection: a missing key or an empty
      string (both falsy) gives the seed, otherwise the parsed text. */
  function LoadSlot<T>(store: Storage, key: string, codec: Codec<T>, seed: seq<T>): (r: Result<seq<T>, LoadError>)
    ensures key !in store || store[key] == "" ==> r == Ok(seed)
    ensures key in store && store[key] != "" ==>
              (r.Ok? <==> codec.decode(store[key]).Some?)
              && (r.Ok? ==> Some(r.value) == codec.decode(store[key]))
              && (r.Err? ==> r.error == Unparsable(key))
  {
    if key in store && store[key] != "" then
      match codec.decode(store[key])
      case Some(xs) => Ok(xs)
      case None => Err(Unparsable(key))
    else
      Ok(seed)
  }

  /** One persistence effect: the collection's text replaces whatever was
      stored under its key, and no other key changes. */
  function SaveSlot<T>(store: Storage, key: string, codec: Codec<T>, xs: seq<T>): (r: Storage)
    ensures key in r && r[key] == codec.encode(xs)
    ensures r.Keys == store.Keys + {key}
    ensures forall k :: k in store && k != key ==> r[k] == store[k]
  {
    store[key := codec.encode(xs)]
  }

  /** Mounting the directory: workers are read first, then products; a
      payload that does not parse aborts the mount. */
  function Load(store: Storage, codecs: Codecs, seedWorkers: seq<Worker>, seedProducts: seq<Product>): (r: Result<Directory, LoadError>)
    ensures r.Ok? <==>
              LoadSlot(store, WorkersKey, codecs.workers, seedWorkers).Ok?
              && LoadSlot(store, ProductsKey, codecs.products, seedProducts).Ok?
    ensures r.Ok? ==>
              && r.value == Start(r.value.workers, r.value.products)
              && Ok(r.value.workers) == LoadSlot(store, WorkersKey, codecs.workers, seedWorkers)
              && Ok(r.value.products) == LoadSlot(store, ProductsKey, codecs.products, seedProducts)
    ensures LoadSlot(store, WorkersKey, codecs.workers, seedWorkers).Err? ==> r == Err(Unparsable(WorkersKey))
  {
    match LoadSlot(store, WorkersKey, codecs.workers, seedWorkers)
    case Err(e) => Err(e)
    case Ok(workers) =>
      match LoadSlot(store, ProductsKey, codecs.products, seedProducts)
      case Err(e) => Err(e)
      case Ok(products) => Ok(Start(workers, products))
  }

  /** Both persistence effects: each collection under its own key. */
  function Save(store: Storage, codecs: Codecs, d: Directory): (r: Storage)
    ensures r.Keys == store.Keys + {WorkersKey, ProductsKey}
    ensures r[WorkersKey] == codecs.workers.encode(d.workers)
    ensures r[ProductsKey] == codecs.products.encode(d.products)
    ensures forall k :: k in store && k != WorkersKey && k != ProductsKey ==> r[k] == store[k]
  {
    SaveSlot(SaveSlot(store, WorkersKey, codecs.workers, d.workers), ProductsKey, codecs.products, d.products)
  }

  /** A saved collection reads back as itself. */
  lemma SlotRoundTrip<T(!new)>(store: Storage, key: string, codec: Codec<T>, seed: seq<T>, xs: seq<T>)
    requires Faithful(codec)
    ensures LoadSlot(SaveSlot(store, key, codec, xs), key, codec, seed) == Ok(xs)
  {
  }

  /** Saving one collection never changes what the other key loads. */
  lemma SlotsIndependent<T, U>(store: Storage, key: string, codec: Codec<T>, xs: seq<T>,
                               other: string, otherCodec: Codec<U>, seed: seq<U>)
    requires key != other
    ensures LoadSlot(SaveSlot(store, key, codec, xs), other, otherCodec, seed)
         == LoadSlot(store, other, otherCodec, seed)
  {
  }

  /** Reloading after a save restores both collections, on the home view
      with the wildcard category and no query. */
  lemma SaveThenLoad(store: Storage, codecs: Codecs, d: Directory, seedWorkers: seq<Worker>, seedProducts: seq<Product>)
    requires Faithful(codecs.workers) && Faithful(codecs.products)
    ensures Load(Save(store, codecs, d), codecs, seedWorkers, seedProducts) == Ok(Start(d.workers, d.products))
  {
  }

  /** Saving the same state twice stores the same as saving it once. */
  lemma SaveIdempotent(store: Storage, codecs: Codecs, d: Directory)
    ensures Save(Save(store, codecs, d), codecs, d) == Save(store, codecs, d)
  {
  }

  /** With neither current key present -- a first visit, or storage that
      only holds data under an older version's keys -- both seeds load. */
  lemma AbsentKeysLoadSeeds(store: Storage, codecs: Codecs, seedWorkers: seq<Worker>, seedProducts: seq<Product>)
    requires WorkersKey !in store && ProductsKey !in store
    ensures Load(store, codecs, seedWorkers, seedProducts) == Ok(Start(seedWorkers, seedProducts))
  {
  }

  /** A workers payload that does not parse makes the mount fail; the seed
      is not substituted. */
  lemma UnparsableWorkersFail(store: Storage, codecs: Codecs, seedWorkers: seq<Worker>, seedProducts: seq<Product>)
    requires WorkersKey in store && store[WorkersKey] != ""
    requires codecs.workers.decode(store[WorkersKey]) == None
    ensures Load(store, codecs, seedWorkers, seedProducts) == Err(Unparsable(WorkersKey))
  {
  }
}

=== FILE: results.dfy ===
/** Failure-carrying values used by the model: an optional value and a
    value-or-error result. */
module Results {

  datatype Option<+T> = None | Some(value: T)

  datatype Result<+T, +E> = Ok(value: T) | Err(error: E)
}

=== FILE: seqs.dfy ===
/** `Array.prototype.filter` on immutable sequences, with the facts the
    directory's views rely on: the result is an order-preserving
    subsequence holding exactly the elements that pass the test. */
module Seqs {

  /** `a` can be obtained from `b` by deleting elements, without
      reordering the ones that remain. */
  ghost predicate IsSubseq<T>(a: seq<T>, b: seq<T>)
    decreases |b|
  {
    || |a| == 0
    || (|b| > 0 && ((a[0] == b[0] && IsSubseq(a[1..], b[1..])) || IsSubseq(a, b[1..])))
  }

  /** The elements of `s` that satisfy `p`, in their original order. */
  function Filter<T(==,!new)>(s: seq<T>, p: T -> bool): (r: seq<T>)
    ensures IsSubseq(r, s)
    ensures forall i :: 0 <= i < |r| ==> p(r[i])
    ensures forall i :: 0 <= i < |s| && p(s[i]) ==> s[i] in r
    ensures forall x :: x in r ==> x in s
    decreases |s|
  {
    if |s| == 0 then []
    else
      var rest := Filter(s[1..], p);
      if p(s[0]) then
        assert ([s[0]] + rest)[1..] == rest;
        [s[0]] + rest
      else
        rest
  }

  /** Filtering keeps every passing value as often as the input holds it,
      and drops every failing value entirely. */
  lemma {:induction false} FilterCounts<T(!new)>(s: seq<T>, p: T -> bool)
    ensures forall x :: multiset(Filter(s, p))[x] == (if p(x) then multiset(s)[x] else 0)
    decreases |s|
  {
    if |s| > 0 {
      FilterCounts(s[1..], p);
      assert s == [s[0]] + s[1..];
      assert multiset(s) == multiset{s[0]} + multiset(s[1..]);
      if p(s[0]) {
        assert multiset(Filter(s, p)) == multiset{s[0]} + multiset(Filter(s[1..], p));
      }
    }
  }

  /** Filtering a sequence whose head is `x`. */
  lemma FilterCons<T(!new)>(x: T, s: seq<T>, p: T -> bool)
    ensures Filter([x] + s, p) == (if p(x) then [x] else []) + Filter(s, p)
  {
  }

  /** When every element passes, filtering is the identity. */
  lemma {:induction false} FilterKeepsAll<T(!new)>(s: seq<T>, p: T -> bool)
    requires forall i :: 0 <= i < |s| ==> p(s[i])
    ensures Filter(s, p) == s
    decreases |s|
  {
    if |s| > 0 {
      FilterKeepsAll(s[1..], p);
    }
  }

  /** Filters that agree on every element give the same result. */
  lemma {:induction false} FilterExt<T(!new)>(s: seq<T>, p: T -> bool, q: T -> bool)
    requires forall i :: 0 <= i < |s| ==> p(s[i]) == q(s[i])
    ensures Filter(s, p) == Filter(s, q)
    decreases |s|
  {
    if |s| > 0 {
      FilterExt(s[1..], p, q);
    }
  }

  /** Two filters in a row keep what passes both tests. */
  lemma {:induction false} FilterFilter<T(!new)>(s: seq<T>, p: T -> bool, q: T -> bool, both: T -> bool)
    requires forall i :: 0 <= i < |s| ==> both(s[i]) == (p(s[i]) && q(s[i]))
    ensures Filter(Filter(s, p), q) == Filter(s, both)
    decreases |s|
  {
    if |s| > 0 {
      FilterFilter(s[1..], p, q, both);
      if p(s[0]) {
        FilterCons(s[0], Filter(s[1..], p), q);
      }
    }
  }

  /** A stricter test keeps a subsequence of what a looser test keeps. */
  lemma {:induction false} FilterMonotone<T(!new)>(s: seq<T>, p: T -> bool, q: T -> bool)
    requires forall i :: 0 <= i < |s| ==> p(s[i]) ==> q(s[i])
    ensures IsSubseq(Filter(s, p), Filter(s, q))
    decreases |s|
  {
    if |s| > 0 {
      FilterMonotone(s[1..], p, q);
      var loose := Filter(s, q);
      if q(s[0]) {
        assert loose[0] == s[0] && loose[1..] == Filter(s[1..], q);
      }
    }
  }

  /** Filtering again with the same test changes nothing. */
  lemma FilterIdempotent<T(!new)>(s: seq<T>, p: T -> bool)
    ensures Filter(Filter(s, p), p) == Filter(s, p)
  {
    FilterKeepsAll(Filter(s, p), p);
  }
}

=== FILE: session.dfy ===
/** A whole session as a state machine: every control of the page is one
    action, applied atomically to the screen, and the persistence effects
    save both collections after every action. */
module Session {
  import opened Results
  import opened Catalog
  import opened App
  import opened Layout
  import opened Persistence

  datatype Action =
    | TypeText(text: string)
    | ToggleSearch
    | Submit
    | Logo
    | SidebarHome
    | MobileHome
    | SidebarCategory(entry: CategoryEntry)
    | Pill(category: Category)
    | Navigate(view: View)
    | AiCategory(suggested: Category)
    | NewWorker(worker: Worker)
    | NewProduct(product: Product)

  /** The screen on mount: the loaded directory, an empty search box and a
      closed search drawer. */
  function Open(d: Directory): (s: Screen)
    ensures s.dir == d && s.chrome.input == "" && !s.chrome.searchOpen
  {
    Screen(d, Chrome("", false))
  }

  function Step(s: Screen, a: Action): (r: Screen)
    ensures a.NewWorker? ==> r.dir.workers == [a.worker] + s.dir.workers
    ensures !a.NewWorker? ==> r.dir.workers == s.dir.workers
    ensures a.NewProduct? ==> r.dir.products == [a.product] + s.dir.products
    ensures !a.NewProduct? ==> r.dir.products == s.dir.products
  {
    match a
    case TypeText(text) => TypeQuery(s, text)
    case ToggleSearch => ToggleMobileSearch(s)
    case Submit => SubmitSearch(s)
    case Logo => ClickLogo(s)
    case SidebarHome => ClickHome(s)
    case MobileHome => ClickMobileHome(s)
    case SidebarCategory(e) => ClickCategory(s, e)
    case Pill(c) => Screen(SetCategory(s.dir, c), s.chrome)
    case Navigate(v) => ClickView(s, v)
    case AiCategory(c) => Screen(AiSelect(s.dir, c), s.chrome)
    case NewWorker(w) => Screen(AddWorker(s.dir, w), s.chrome)
    case NewProduct(p) => Screen(AddProduct(s.dir, p), s.chrome)
  }

  /** The actions applied in order, oldest first. */
  function Run(s: Screen, acts: seq<Action>): Screen
    decreases |acts|
  {
    if |acts| == 0 then s else Run(Step(s, acts[0]), acts[1..])
  }

  /** The workers added by `acts`, newest first. */
  function AddedWorkers(acts: seq<Action>): seq<Worker>
    decreases |acts|
  {
    if |acts| == 0 then []
    else AddedWorkers(acts[1..]) + (if acts[0].NewWorker? then [acts[0].worker] else [])
  }

  /** The products added by `acts`, newest first. */
  function AddedProducts(acts: seq<Action>): seq<Product>
    decreases |acts|
  {
    if |acts| == 0 then []
    else AddedProducts(acts[1..]) + (if acts[0].NewProduct? then [acts[0].product] else [])
  }

  /** The collections only ever grow at the front: after any run, each is
      the entries added during the run, newest first, followed by the
      collection as it was, unchanged. */
  lemma {:induction false} CollectionsOnlyPrepend(s: Screen, acts: seq<Action>)
    ensures Run(s, acts).dir.workers == AddedWorkers(acts) + s.dir.workers
    ensures Run(s, acts).dir.products == AddedProducts(acts) + s.dir.products
    decreases |acts|
  {
    if |acts| > 0 {
      CollectionsOnlyPrepend(Step(s, acts[0]), acts[1..]);
    }
  }

  /** Only submitting the search form and the logo change the applied
      query, and of those only the logo always empties it. */
  lemma QueryChangesOnlyBySearch(s: Screen, a: Action)
    ensures Step(s, a).dir.query != s.dir.query ==> a.Submit? || a.Logo?
    ensures a.Logo? ==> Step(s, a).dir.query == ""
    ensures a.Submit? ==> Step(s, a).dir.query == s.chrome.input
  {
  }

  /** The controls that always land on the directory's home view. */
  predicate GoesHome(a: Action) {
    a.Submit? || a.Logo? || a.SidebarHome? || a.MobileHome? || a.SidebarCategory?
    || a.AiCategory? || a.NewWorker?
  }

  /** Which controls open the home view, and which reset the category. */
  lemma NavigationTargets(s: Screen, a: Action)
    ensures GoesHome(a) ==> Step(s, a).dir.view == Home
    ensures a.NewProduct? ==> Step(s, a).dir.view == Products
    ensures (a.Logo? || a.SidebarHome? || a.MobileHome? || a.NewWorker?) ==> Step(s, a).dir.category == All
    ensures (a.TypeText? || a.ToggleSearch? || a.Navigate? || a.NewProduct?) ==> Step(s, a).dir.category == s.dir.category
  {
  }

  /** One step followed by the persistence effects. */
  function PersistedStep(s: Screen, store: Storage, codecs: Codecs, a: Action): (Screen, Storage) {
    var s' := Step(s, a);
    (s', Save(store, codecs, s'.dir))
  }

  /** The source's effects write a key only when its collection changed.
      `PersistedStep` writes both keys after every action; once storage
      holds both encoded collections, as it does after mounting, the two
      agree: storage gains the changed collection's text and nothing else. */
  lemma PersistedStepIsGated(s: Screen, store: Storage, codecs: Codecs, a: Action)
    requires WorkersKey in store && store[WorkersKey] == codecs.workers.encode(s.dir.workers)
    requires ProductsKey in store && store[ProductsKey] == codecs.products.encode(s.dir.products)
    ensures PersistedStep(s, store, codecs, a).1 ==
      if a.NewWorker? then SaveSlot(store, WorkersKey, codecs.workers, Step(s, a).dir.workers)
      else if a.NewProduct? then SaveSlot(store, ProductsKey, codecs.products, Step(s, a).dir.products)
      else store
  {
  }

  /** A run with the persistence effects after every step. */
  function PersistedRun(s: Screen, store: Storage, codecs: Codecs, acts: seq<Action>): (Screen, Storage)
    decreases |acts|
  {
    if |acts| == 0 then (s, store)
    else
      var (s', store') := PersistedStep(s, store, codecs, acts[0]);
      PersistedRun(s', store', codecs, acts[1..])
  }

  /** Mounting: load (or fail), then the persistence effects run once. */
  function Mount(store: Storage, codecs: Codecs, seedWorkers: seq<Worker>, seedProducts: seq<Product>): (r: Result<(Screen, Storage), LoadError>)
    ensures r.Ok? <==> Load(store, codecs, seedWorkers, seedProducts).Ok?
    ensures r.Ok? ==> r.value.0 == Open(Load(store, codecs, seedWorkers, seedProducts).value)
    ensures r.Ok? ==> r.value.1 == Save(store, codecs, r.value.0.dir)
  {
    match Load(store, codecs, seedWorkers, seedProducts)
    case Err(e) => Err(e)
    case Ok(d) => Ok((Open(d), Save(store, codecs, d)))
  }

  /** On a first visit the mount succeeds with the seeds on screen, and the
      persistence effects write both seeds under their `_v1` keys. */
  lemma FirstVisitStoresSeeds(store: Storage, codecs: Codecs, seedWorkers: seq<Worker>, seedProducts: seq<Product>)
    requires WorkersKey !in store && ProductsKey !in store
    ensures Mount(store, codecs, seedWorkers, seedProducts).Ok?
    ensures Mount(store, codecs, seedWorkers, seedProducts).value.0.dir.workers == seedWorkers
    ensures Mount(store, codecs, seedWorkers, seedProducts).value.1[WorkersKey] == codecs.workers.encode(seedWorkers)
    ensures Mount(store, codecs, seedWorkers, seedProducts).value.1[ProductsKey] == codecs.products.encode(seedProducts)
  {
    AbsentKeysLoadSeeds(store, codecs, seedWorkers, seedProducts);
  }

  /** Whatever the user does after a successful mount, reloading the page
      restores exactly the collections on screen. */
  lemma {:induction false} ReloadRestoresCollections(
      store: Storage, codecs: Codecs, seedWorkers: seq<Worker>, seedProducts: seq<Product>,
      acts: seq<Action>)
    requires Faithful(codecs.workers) && Faithful(codecs.products)
    requires Mount(store, codecs, seedWorkers, seedProducts).Ok?
    ensures var (s, st) := Mount(store, codecs, seedWorkers, seedProducts).value;
            var (s', st') := PersistedRun(s, st, codecs, acts);
            Load(st', codecs, seedWorkers, seedProducts) == Ok(Start(s'.dir.workers, s'.dir.products))
  {
    var (s, st) := Mount(store, codecs, seedWorkers, seedProducts).value;
    SaveThenLoad(store, codecs, s.dir, seedWorkers, seedProducts);
    PersistedRunKeepsInSync(s, st, codecs, seedWorkers, seedProducts, acts);
  }

  /** Invariant of a persisted run: the stored collections are the ones on
      screen. */
  lemma {:induction false} PersistedRunKeepsInSync(
      s: Screen, store: Storage, codecs: Codecs, seedWorkers: seq<Worker>, seedProducts: seq<Product>,
      acts: seq<Action>)
    requires Faithful(codecs.workers) && Faithful(codecs.products)
    requires Load(store, codecs, seedWorkers, seedProducts) == Ok(Start(s.dir.workers, s.dir.products))
    ensures var (s', st') := PersistedRun(s, store, codecs, acts);
            Load(st', codecs, seedWorkers, seedProducts) == Ok(Start(s'.dir.workers, s'.dir.products))
    decreases |acts|
  {
    if |acts| > 0 {
      var (s1, st1) := PersistedStep(s, store, codecs, acts[0]);
      SaveThenLoad(store, codecs, s1.dir, seedWorkers, seedProducts);
      PersistedRunKeepsInSync(s1, st1, codecs, seedWorkers, seedProducts, acts[1..]);
    }
  }
}

=== FILE: text.dfy ===
/** The string primitives the directory's search relies on:
    `String.prototype.trim` (to decide whether a query is blank),
    `String.prototype.toLowerCase` (case-insensitive matching) and
    `String.prototype.includes` (substring test). */
module Text {

  /** The code points ECMAScript counts as WhiteSpace or LineTerminator,
      i.e. exactly what `trim` strips from both ends of a string. */
  predicate IsSpace(c: char) {
    || c == '\t' || c == '\n' || c == '\U{000B}' || c == '\U{000C}' || c == '\r'
    || c == ' ' || c == '\U{00A0}' || c == '\U{1680}'
    || ('\U{2000}' <= c <= '\U{200A}')
    || c == '\U{2028}' || c == '\U{2029}' || c == '\U{202F}' || c == '\U{205F}'
    || c == '\U{3000}' || c == '\U{FEFF}'
  }

  predicate AllSpace(s: string) {
    forall i :: 0 <= i < |s| ==> IsSpace(s[i])
  }

  /** `needle` occurs in `hay` starting at index `i`. */
  predicate OccursAt(hay: string, needle: string, i: int) {
    0 <= i && i + |needle| <= |hay| && hay[i..i + |needle|] == needle
  }

  /** Drops leading white space. */
  function TrimStart(s: string): (r: string)
    ensures |r| <= |s| && r == s[|s| - |r|..]
    ensures AllSpace(s[..|s| - |r|])
    ensures r == [] || !IsSpace(r[0])
    decreases |s|
  {
    if |s| > 0 && IsSpace(s[0]) then
      var r := TrimStart(s[1..]);
      assert s[..|s| - |r|] == [s[0]] + s[1..][..|s| - 1 - |r|];
      r
    else
      s
  }

  /** Drops trailing white space. */
  function TrimEnd(s: string): (r: string)
    ensures |r| <= |s| && r == s[..|r|]
    ensures AllSpace(s[|r|..])
    ensures r == [] || !IsSpace(r[|r| - 1])
    decreases |s|
  {
    if |s| > 0 && IsSpace(s[|s| - 1]) then
      var r := TrimEnd(s[..|s| - 1]);
      assert s[|r|..] == s[..|s| - 1][|r|..] + [s[|s| - 1]];
      r
    else
      s
  }

  /** `String.prototype.trim`: the longest infix of `s` that neither starts
      nor ends with white space, left after only white space was removed. */
  function Trim(s: string): (r: string)
    ensures r == [] <==> AllSpace(s)
    ensures r != [] ==> !IsSpace(r[0]) && !IsSpace(r[|r| - 1])
    ensures OccursAt(s, r, |s| - |TrimStart(s)|)
    ensures AllSpace(s[..|s| - |TrimStart(s)|])
    ensures AllSpace(s[|s| - |TrimStart(s)| + |r|..])
  {
    var t := TrimStart(s);
    var r := TrimEnd(t);
    TrimOccurs(s, t, r);
    TrimTail(s, t, r);
    TrimEnds(t, r);
    TrimmedEmptyIff(s);
    r
  }

  /** Helpers for `Trim`: where the trimmed text sits in the input. */
  lemma TrimOccurs(s: string, t: string, r: string)
    requires |t| <= |s| && t == s[|s| - |t|..]
    requires |r| <= |t| && r == t[..|r|]
    ensures OccursAt(s, r, |s| - |t|)
  {
  }

  lemma TrimTail(s: string, t: string, r: string)
    requires |t| <= |s| && t == s[|s| - |t|..]
    requires |r| <= |t| && AllSpace(t[|r|..])
    ensures AllSpace(s[|s| - |t| + |r|..])
  {
  }

  lemma TrimEnds(t: string, r: string)
    requires t == [] || !IsSpace(t[0])
    requires |r| <= |t| && r == t[..|r|]
    requires r == [] || !IsSpace(r[|r| - 1])
    ensures r != [] ==> !IsSpace(r[0]) && !IsSpace(r[|r| - 1])
  {
  }

  /** Helper for `Trim`: nothing is left exactly when the input is all
      white space. */
  lemma TrimmedEmptyIff(s: string)
    ensures TrimEnd(TrimStart(s)) == [] <==> AllSpace(s)
  {
    var t := TrimStart(s);
    var k := |s| - |t|;
    if TrimEnd(t) == [] {
      assert t[0..] == t;
      assert s[..k] == s;
    }
  }

  /** The query test of the directory: `q.trim()` is the empty string,
      i.e. falsy in JavaScript. */
  predicate Blank(q: string)
    ensures Blank(q) <==> AllSpace(q)
  {
    Trim(q) == ""
  }

  /** ASCII upper-case letters map to lower case; every other code point is
      left alone. */
  function LowerChar(c: char): (r: char)
    ensures 'A' <= c <= 'Z' ==> 'a' <= r <= 'z' && r as int - c as int == 32
    ensures !('A' <= c <= 'Z') ==> r == c
  {
    if 'A' <= c <= 'Z' then (c as int + 32) as char else c
  }

  /** `String.prototype.toLowerCase`, restricted to ASCII letters. */
  function Lower(s: string): (r: string)
    ensures |r| == |s|
    ensures forall i :: 0 <= i < |s| ==> r[i] == LowerChar(s[i])
    ensures forall i :: 0 <= i < |r| ==> !('A' <= r[i] <= 'Z')
  {
    seq(|s|, i requires 0 <= i < |s| => LowerChar(s[i]))
  }

  /** `String.prototype.includes`: the empty needle occurs everywhere. */
  predicate Includes(hay: string, needle: string)
    ensures needle == [] ==> Includes(hay, needle)
    ensures Includes(hay, needle) ==> |needle| <= |hay|
    ensures Includes(hay, needle) ==> forall c :: c in needle ==> c in hay
    decreases |hay|
  {
    |needle| <= |hay| && (hay[..|needle|] == needle || (|hay| > 0 && Includes(hay[1..], needle)))
  }

  /** `Includes` holds exactly when the needle occurs at some position. */
  lemma {:induction false} IncludesIff(hay: string, needle: string)
    ensures Includes(hay, needle) <==> exists i :: OccursAt(hay, needle, i)
    decreases |hay|
  {
    if Includes(hay, needle) {
      if hay[..|needle|] == needle {
        assert OccursAt(hay, needle, 0);
      } else {
        IncludesIff(hay[1..], needle);
        var j :| OccursAt(hay[1..], needle, j);
        assert hay[j + 1..j + 1 + |needle|] == hay[1..][j..j + |needle|];
        assert OccursAt(hay, needle, j + 1);
      }
    }
    if exists i :: OccursAt(hay, needle, i) {
      var i :| OccursAt(hay, needle, i);
      if i > 0 {
        assert hay[1..][i - 1..i - 1 + |needle|] == hay[i..i + |needle|];
        assert OccursAt(hay[1..], needle, i - 1);
        IncludesIff(hay[1..], needle);
      }
    }
  }

  /** Lower-casing does not change what counts as white space. */
  lemma LowerKeepsBlank(q: string)
    ensures Blank(Lower(q)) <==> Blank(q)
  {
    var l := Lower(q);
    forall i | 0 <= i < |q|
      ensures IsSpace(l[i]) <==> IsSpace(q[i])
    {
      if 'A' <= q[i] <= 'Z' {
        assert 'a' <= l[i] <= 'z';
      }
    }
    assert AllSpace(l) <==> AllSpace(q);
  }

  /** Lower-casing twice is lower-casing once. */
  lemma LowerIdempotent(s: string)
    ensures Lower(Lower(s)) == Lower(s)
  {
  }
}
